=== FILE: README.md ===
# Task board model

A Dafny model of the task-board engine of a Qt kanban tracker. Tasks are
cards in three status columns: Todo, InProgress and Done. The model covers:

- The **task card** (`TaskCards.TaskCard`, a class). It has setters that
  change one field each, progress clamped to 0..100, a duplicate-free
  prerequisite list, and a flat JSON export.
- The **enum encodings** (`TaskTypes`): Todo/InProgress/Done and
  Low/Medium/High as 0/1/2, the integers the table stores. A deadline is an
  optional instant in milliseconds. Its ISO-8601 text is modelled by the
  whole second it names.
- The **board geometry** (`BoardLayout`). The band rule maps an x coordinate
  and a scene width to a status. The stacking layout of `arrangeCards` is
  given as a function of the cards' statuses in iteration order.
- The **`tasks` table** (`Persistence`). It holds the row encoding and
  decoding, the four example tasks seeded into an empty board, and both
  round trips.
- The **task dialog's OK button** (`Dialog`). It trims the texts, refuses a
  blank title, maps the combo indexes to enum values, and fills the form
  for an edit.
- The **main window** (`MainWindow.Board`, a class). It holds the cards in the
  scene's iteration order and the rows of the `tasks` table. Each slot that
  changes cards or the table is a method: layout, save, load, create, edit,
  drop, delete and clear.
- The **report numbers** (`Report`): the tallies by status and by priority,
  and the Y axis of the priority chart.

Some things are parameters rather than modelled state:

- **Iteration order.** `QGraphicsScene::items()` iterates in stacking order.
  The model leaves open where a newly added card lands in that order:
  every card creation takes the index `at` it appears at.
- **Ids.** Fresh uuids are a parameter (`id`, `newId`).
- **Time.** The current time is `now`, in milliseconds.
- **Stored rows.** The rows of `tasks.db` when the window starts are the
  constructor's parameter `stored`; a table `initDatabase` has just created
  has none.
- **Selection.** The scene's selection is a set of cards.
- **Scene width.** The width the band rule divides is a parameter `w`. The
  view's `setSceneRect(0, 0, 1150, 700)` does not fix the scene's own
  width. Layout and bands agree exactly when 667.5 < w <= 1237.5, and 1150
  lies in that range.

The model follows what the code does:

- A new card starts with progress 0 whatever its status.
- Layout stacks the cards in the scene's iteration order; the `m_cards`
  list plays no part. There is no `visible` flag and no filter.
- Only title, description, status, priority and deadline are saved. The
  deadline is saved to the whole second. Ids, assignee, project id,
  progress and dependencies are not saved.
- Nothing removes dependencies when a card is deleted.

## Model

| member | source | states |
|---|---|---|
| TaskTypes.StatusCode | taskcard.h:15 | Todo, InProgress and Done are encoded as 0, 1 and 2 |
| TaskTypes.PriorityCode | taskcard.h:16 | Low, Medium and High are encoded as 0, 1 and 2 |
| TaskTypes.StatusCodeRoundTrip | taskcard.h:15 | for statuses and for codes 0..2, decoding inverts encoding in both directions |
| TaskTypes.PriorityCodeRoundTrip | taskcard.h:16 | for priorities and for codes 0..2, decoding inverts encoding in both directions |
| TaskTypes.StatusFromCode | mainwindow.cpp:265 | the cast of a stored code 0..2 gives the status whose code it is |
| TaskTypes.PriorityFromCode | mainwindow.cpp:266 | the cast of a stored code 0..2 gives the priority whose code it is |
| TaskTypes.IsoSeconds | mainwindow.cpp:229-233 | the ISO text names the second containing the deadline: the floor of msecs/1000 |
| TaskTypes.FromIsoSeconds | mainwindow.cpp:268-271 | parsing ISO text gives a valid date-time |
| TaskTypes.TruncatedToSecond | mainwindow.cpp:229-271 | a trip through ISO text keeps validity and drops the milliseconds: the result is a whole second, at most 999 ms earlier, so second-aligned deadlines come back exactly |
| TaskTypes.IsoTextRoundTrip | mainwindow.cpp:268-271 | the text of a parsed deadline is the text that was parsed |
| TaskCards.ClampProgress | taskcard.cpp:103-109 | qBound(0, p, 100): the result is in 0..100, is p when p is in range, 0 below and 100 above |
| TaskCards.ClampIdempotent | taskcard.cpp:106 | clamping a clamped value changes nothing |
| TaskCards.Appended | taskcard.cpp:117-123 | after contains-then-append, t is present, the old list is a prefix, at most t is added, and no duplicates appear |
| TaskCards.FirstIndex | taskcard.cpp:125-129 | the first position holding t |
| TaskCards.RemovedOne | taskcard.cpp:125-129 | removeOne leaves the list unchanged when t is absent, and otherwise drops exactly its first occurrence |
| TaskCards.RemovedOneNoDuplicates | taskcard.cpp:125-129 | on a duplicate-free list, t is gone afterwards, every other element stays, and the list stays duplicate-free |
| TaskCards.TaskCard.constructor | taskcard.cpp:15-31 | the given title, description, priority, status, deadline, assignee and project id, progress 0, not selected, no dependencies; the defaults are Medium, Todo and no deadline (taskcard.h:18-22) |
| TaskCards.TaskCard.SetId | taskcard.cpp:67-70 | only the id changes, to v |
| TaskCards.TaskCard.SetProjectId | taskcard.cpp:78-81 | only the project id changes, to v |
| TaskCards.TaskCard.SetTitle | taskcard.cpp:355-359 | only the title changes, to v |
| TaskCards.TaskCard.SetDescription | taskcard.cpp:366-370 | only the description changes, to v |
| TaskCards.TaskCard.SetPriority | taskcard.cpp:377-381 | only the priority changes, to v |
| TaskCards.TaskCard.SetDeadline | taskcard.cpp:388-392 | only the deadline changes, to v |
| TaskCards.TaskCard.SetAssignee | taskcard.cpp:399-403 | only the assignee changes, to v |
| TaskCards.TaskCard.SetStatus | taskcard.cpp:456-460 | only the status changes, to v |
| TaskCards.TaskCard.MoveTo | mainwindow.cpp:360 | setPos changes only the position |
| TaskCards.TaskCard.SetProgress | taskcard.cpp:103-109 | only progress changes, to the clamped value; setting the current progress again changes nothing |
| TaskCards.TaskCard.AddDependency | taskcard.cpp:117-123 | only the list changes, as Appended says; t is present afterwards and there are still no duplicates; the card itself is not refused |
| TaskCards.TaskCard.RemoveDependency | taskcard.cpp:125-129 | only the list changes, as RemovedOne says; t is absent afterwards |
| TaskCards.TaskCard.ToJson | taskcard.cpp:467-493 | the nine keys always, "deadline" exactly when the deadline is valid; status, priority and progress as integers; the dependencies as their ids, in list order |
| BoardLayout.CardX | mainwindow.cpp:106-108 | a card at its column's x lies inside that column's rectangle |
| BoardLayout.StatusFromPosition | mainwindow.cpp:365-379 | for a non-negative width w: Todo iff x < w/3, InProgress iff w/3 <= x < 2w/3, Done iff x >= 2w/3 |
| BoardLayout.BandsMonotonic | mainwindow.cpp:365-379 | a larger x never maps to an earlier column |
| BoardLayout.Arrangement | mainwindow.cpp:327-363 | one position per card: x is the column's left edge plus 25, and y = 90 + 140k for the k-th card of that status in iteration order |
| BoardLayout.CardXInBandIff | mainwindow.cpp:365-379 | each column's card x lies in that column's band iff 667.5 < w <= 1237.5 |
| BoardLayout.ArrangementAgreesWithBands | mainwindow.cpp:327-379 | for such w, the band rule applied to a laid-out card gives back its status |
| BoardLayout.ArrangementAgreesAtSceneWidth | mainwindow.cpp:327-379 | at width 1150, the band rule gives back every laid-out card's status |
| BoardLayout.ArrangementNoOverlap | mainwindow.cpp:327-363 | two cards of one column share x, and the later one is at least a card height plus the gap lower |
| BoardLayout.ArrangementInsert | mainwindow.cpp:468-484 | inserting a card at any index gives the moves of NewPositions: no earlier card and no card of another column moves; later cards of its column move down one slot; the new card goes below the earlier cards of its column |
| Persistence.EncodeRow | mainwindow.cpp:222-235 | status and priority are stored as their codes; the deadline column is NULL exactly when the deadline is invalid |
| Persistence.DecodeRow | mainwindow.cpp:262-273 | the casts invert the stored codes; NULL gives an invalid deadline and anything else a valid one |
| Persistence.CardRowCardRoundTrip | mainwindow.cpp:213-283 | card to row to card keeps title, description, status and priority, and the deadline cut to the second |
| Persistence.RowCardRowRoundTrip | mainwindow.cpp:254-273 | row to card to row gives back the very row |
| Persistence.EncodeAll | mainwindow.cpp:218-237 | one row per card |
| Persistence.DecodeAll | mainwindow.cpp:262-281 | one card per row |
| Persistence.SeedTasks | mainwindow.cpp:285-321 | four examples, two Todo, one InProgress and one Done, all with a valid deadline |
| Persistence.Loaded | mainwindow.cpp:261-321 | one card per row when a row was read, otherwise the four examples |
| Persistence.SaveLoadRoundTrip | mainwindow.cpp:213-321 | saving and loading a non-empty board gives back each card's saved fields in order, deadlines cut to the second; an empty board comes back as the examples only |
| Persistence.LoadSaveRoundTrip | mainwindow.cpp:240-283 | loading a non-empty table and saving it writes the same table |
| Dialog.Trimmed | mainwindow.cpp:412-413 | QString::trimmed: whitespace is cut only at both ends; the result is empty iff the text is all whitespace |
| Dialog.TrimmedIdempotent | mainwindow.cpp:412-413 | trimming twice is trimming once |
| Dialog.PriorityFromIndex | mainwindow.cpp:423-429 | 0 is Low, 2 is High, and every other index is Medium |
| Dialog.StatusFromIndex | mainwindow.cpp:431-437 | 1 is InProgress, 2 is Done, and every other index is Todo |
| Dialog.ComboRoundTrip | mainwindow.cpp:534-545 | the index the edit form selects maps back to the card's value, and for 0..2 the reverse holds |
| Dialog.Accept | mainwindow.cpp:410-437 | refused iff the title is all whitespace; otherwise trimmed texts, the mapped combo values and the editor's instant |
| Dialog.PriorityIndex | mainwindow.cpp:534-538 | the edit form selects an index in 0..2 that the priority combo maps back to the card's priority |
| Dialog.StatusIndex | mainwindow.cpp:541-545 | the edit form selects an index in 0..2 that the status combo maps back to the card's status |
| Dialog.NewTaskForm | mainwindow.cpp:389-394 | the reset add form: empty title and description, indexes meaning Low and Todo, and a deadline 7 days after now |
| Dialog.NewTaskFormRefused | mainwindow.cpp:389-394 | the reset add form has an empty title, so OK on it is refused |
| Dialog.EditForm | mainwindow.cpp:529-548 | the edit form shows the title verbatim, the description as the rich-text editor's plain text of it, combo indexes that map back to the card's values, and its deadline when valid |
| Dialog.EditUnchanged | mainwindow.cpp:521-548 | OK on an unchanged edit form gives back the card's fields, except the description, which becomes the trimmed plain text of the editor, and a missing deadline, which becomes the editor's previous value |
| Dialog.AcceptIdempotent | mainwindow.cpp:410-448 | reopening an edited card and pressing OK again changes at most the description, to the trimmed plain text of the editor; when the editor gives the description back unchanged, the fields are the same |
| Report.StatusCountsSum | reportdialog.cpp:21-28 | the three status counts sum to the number of non-null cards |
| Report.PriorityCountsSum | reportdialog.cpp:21-28 | the three priority counts sum to the number of non-null cards |
| Report.TallyCards | reportdialog.cpp:21-28 | a key is in a map iff some non-null card has it; the default-0 lookup gives each status and priority count, and null cards count nowhere |
| Report.PriorityAxis | reportdialog.cpp:113-120 | the range top is at least 1 and at least every count, and is a count when above 1; the tick count is the top plus 1, at least 2 |
| Report.ReportNumbers | reportdialog.cpp:20-32 | the default-0 counts sum to the non-null cards in both charts, and the axis has room for every priority bar |
| MainWindow.LaidOutPlaces | mainwindow.cpp:327-363 | the cards are laid out iff every card is at its column's x and at the slot below the earlier cards of its status |
| MainWindow.LaidOutInBands | mainwindow.cpp:327-379 | for 667.5 < w <= 1237.5, the band rule maps each laid-out card to its status |
| MainWindow.RelayoutKeepsPositions | mainwindow.cpp:327-363 | layout depends only on statuses, so laying out a laid-out board again moves nothing |
| MainWindow.Without | mainwindow.cpp:489-496 | the cards left are exactly the unselected ones, without duplicates |
| MainWindow.WithoutConcat | mainwindow.cpp:489-496 | filtering a concatenation concatenates the filtered parts, so the cards left keep their order |
| MainWindow.RemovedOneWithout | mainwindow.cpp:489-496 | removing one more selected card continues the filtering, whatever the order of removal |
| MainWindow.Board.constructor | mainwindow.cpp:63-65 | the table holds the stored rows; the board holds fresh cards with exactly the loaded fields (one per row, or the four examples when there is no row), every other field at its default, laid out; no card is being edited |
| MainWindow.Board.ArrangeCards | mainwindow.cpp:327-363 | every card stands where Arrangement puts it; nothing else changes |
| MainWindow.Board.StackColumns | mainwindow.cpp:330-362 | the loop with one running y per column puts the k-th card at its column's x and slot |
| MainWindow.Board.SaveTasks | mainwindow.cpp:213-238 | the table becomes one encoded row per card, in iteration order |
| MainWindow.Board.AddNewCard | mainwindow.cpp:472-480 | a new card with the given fields and defaults appears at index at; the other cards are unchanged |
| MainWindow.Board.LoadTasks | mainwindow.cpp:240-325 | the old cards are discarded; the new cards carry exactly the loaded fields, with every other field at its default, are all fresh and are laid out; the table is untouched |
| MainWindow.Board.CreateCards | mainwindow.cpp:244-321 | one card per row, or the four examples iff no row was read |
| MainWindow.Board.AddRowCards | mainwindow.cpp:244-281 | the old cards are discarded, then one fresh card per row, with the decoded fields |
| MainWindow.Board.AddExampleCards | mainwindow.cpp:285-321 | four fresh cards with the example fields |
| MainWindow.Board.AddCards | mainwindow.cpp:261-281 | one fresh card per given field set, as a multiset |
| MainWindow.Board.AddOneCard | mainwindow.cpp:273-280 | a fresh card with fields p, and every other field at its default, is inserted at index at, or last; the earlier cards stay, in order, and keep their fields |
| MainWindow.Board.Restart | mainwindow.cpp:69-71 | save on close, then load on start: the table holds one encoded row per old card; the saved fields come back, cut to the second, or the examples for an empty board; every card is fresh, with progress, assignee, project id, dependencies and selection at their defaults, and the board is laid out |
| MainWindow.Board.CreateNewTask | mainwindow.cpp:468-484 | the new card is inserted at index at, the old cards keep their fields, and all are laid out; on a laid-out board only later cards of its column move, each down one slot |
| MainWindow.Board.RelayoutAfterInsert | mainwindow.cpp:483 | the arrangeCards call after an insertion moves positions as ArrangementInsert says |
| MainWindow.Board.AddButtonClicked | mainwindow.cpp:381-394 | the next OK adds a card; the form is reset with a deadline 7 days ahead |
| MainWindow.Board.CardDoubleClicked | mainwindow.cpp:521-548 | the next OK edits this card; the form is EditForm of its fields |
| MainWindow.Board.DialogRejected | mainwindow.cpp:184-189 | cancelling makes the next OK add a card |
| MainWindow.Board.AcceptTaskDialog | mainwindow.cpp:410-466 | a blank title changes nothing at all; otherwise the edited card gets exactly the five fields, or a fresh card with those fields and every other field at its default is inserted at index at; then the board is laid out and saved |
| MainWindow.Board.EditCard | mainwindow.cpp:440-451 | the edited card gets exactly the five dialog fields, every other card keeps its fields, and the board is laid out |
| MainWindow.Board.UpdateCardStatusByPosition | mainwindow.cpp:564-582 | if the band of the card's x is its status, nothing changes and nothing is saved; otherwise only its status changes to that band, then the board is laid out and saved; for 667.5 < w <= 1237.5 the card ends in its band |
| MainWindow.Board.DeleteSelected | mainwindow.cpp:486-503 | exactly the selected cards are removed and the rest keep their order and fields, then the board is laid out and saved |
| MainWindow.Board.RemoveItems | mainwindow.cpp:489-496 | removing the selected cards one by one, in any order, leaves the unselected ones in order |
| MainWindow.Board.ClearAll | mainwindow.cpp:505-519 | both the board and the table are empty |

## Left out

- Painting, glow animation, hover, and the mouse press, move and release
  handlers are presentation. A drop is modelled as `MoveTo` setting
  the card's x, which `UpdateCardStatusByPosition` then reads. The `selected` flag a press sets is a field
  that nothing in the model changes.
- SQLite is modelled as a sequence of rows: no open or query failures, and
  no early return of loadTasks on a failed SELECT. The autoincrement id
  column is never read back.
- Stored status and priority values outside 0..2 are not modelled. The table
  only holds what saveTasks writes.
- `QDateTime::addDays` is modelled as exactly 86,400,000 ms per day, with no
  time zone or daylight-saving shift. ISO text is modelled by the second it
  names, and no time zone is written.
- Qt's stacking order is not modelled. Where a new card appears in the
  iteration order is the parameter `at`.
- MainWindow.Board.LoadTasks: it states the loaded fields as a multiset, not in row
  order, because the iteration order of created cards is a parameter. It
  does not state which fresh id each card got.
- MainWindow.Board.Restart: it states the saved fields as a multiset, for the same
  reason, and does not state the new ids.
- MainWindow.Board.AddExampleCards: the four example blocks are modelled by one
  creation loop over the example list. The cards, fields and order of
  creation are the same.
- The description editor is a rich-text editor. What its `toPlainText`
  returns after `setText(d)` is the parameter `plain` of `Dialog.EditForm`:
  Qt's rich-text guess, the HTML rendering and its character mapping
  (U+00A0 to a space, U+2028 and U+2029 to a newline) are not modelled.
- MainWindow.Board.AcceptTaskDialog requires the edited card to be on the board.
  The dialog is modal, so no card can be deleted while it is open.
- The `m_cards` list is left out, because no core operation reads it. The
  model keeps only the scene's cards.
- Filters are declared but have no body, so they are left out.
- There is no cascade delete of dependencies and no dependency persistence,
  because the source has neither.
- Deleted objects are not modelled. A removed card stays allocated, so a
  dangling `m_currentEditCard` or a dependency on a deleted card is not
  represented.
- Floating point: positions and widths are exact reals. The source adds
  integers held in `int` and `qreal`, which are exact at these sizes, but
  the band rule divides the `qreal` width by 3: the model's thirds are
  exact, so at an x equal to the rounded third a `double` may answer the
  next band.
- `TaskCards.TaskCard.ToJson` gives the JSON object as a map from keys to
  values; the text `QJsonDocument::toJson` makes of it is left out.
- `QUuid` generation is left out. Ids are parameters.
- The report's charts and PDF export are left out. Only the counts and the
  two axis numbers are modelled.
- Helper methods `StackColumns`, `CreateCards`, `AddRowCards`,
  `AddExampleCards`, `AddCards`, `AddOneCard`, `RelayoutAfterInsert`,
  `EditCard` and `RemoveItems` are parts of the source functions they are cited against.
  They are split out only to keep each proof small.

=== FILE: board.dfy ===
/** The main window's task board (mainwindow.cpp): the task cards on the
    scene, in the scene's iteration order, and the `tasks` table they are
    saved to. Each slot of the window that changes cards or the table is a
    method here; widgets, dialogs and signal wiring are not modelled. */
module MainWindow {
  import opened TaskTypes
  import opened TaskCards
  import opened BoardLayout
  import opened Persistence
  import Dialog

  function StatusesOf(cs: seq<TaskCard>): seq<Status>
    reads cs
  {
    seq(|cs|, i requires 0 <= i < |cs| reads cs => cs[i].status)
  }

  function PersistedOf(cs: seq<TaskCard>): seq<PersistedFields>
    reads cs
  {
    seq(|cs|, i requires 0 <= i < |cs| reads cs => cs[i].Persisted())
  }

  function PositionsOf(cs: seq<TaskCard>): (ps: seq<Pos>)
    reads cs
    ensures |ps| == |cs|
  {
    seq(|cs|, i requires 0 <= i < |cs| reads cs => Pos(cs[i].x, cs[i].y))
  }

  /** The cards stand where arrangeCards puts cards of their statuses. */
  ghost predicate LaidOut(cs: seq<TaskCard>)
    reads cs
  {
    PositionsOf(cs) == Arrangement(StatusesOf(cs))
  }

  /** Laid out means: every card at its column's x, below the earlier cards
      of its status. */
  lemma LaidOutPlaces(cs: seq<TaskCard>)
    ensures LaidOut(cs) <==>
              forall k :: 0 <= k < |cs| ==>
                cs[k].x == CardX(cs[k].status) && cs[k].y == SlotY(Count(StatusesOf(cs)[..k], cs[k].status))
  {
    if forall k :: 0 <= k < |cs| ==>
         cs[k].x == CardX(cs[k].status) && cs[k].y == SlotY(Count(StatusesOf(cs)[..k], cs[k].status))
    {
      assert forall k :: 0 <= k < |cs| ==> PositionsOf(cs)[k] == Arrangement(StatusesOf(cs))[k];
    }
    if LaidOut(cs) {
      forall k | 0 <= k < |cs|
        ensures cs[k].x == CardX(cs[k].status) && cs[k].y == SlotY(Count(StatusesOf(cs)[..k], cs[k].status))
      {
        assert PositionsOf(cs)[k] == Arrangement(StatusesOf(cs))[k];
      }
    }
  }

  /** With a scene width between 667.5 and 1237.5 (1150 among them), a
      laid-out card lies in the band of its own status. */
  lemma LaidOutInBands(cs: seq<TaskCard>, w: real)
    requires LaidOut(cs) && 1335.0 / 2.0 < w <= 2475.0 / 2.0
    ensures forall i :: 0 <= i < |cs| ==> StatusFromPosition(cs[i].x, w) == cs[i].status
  {
    CardXInBandIff(w);
    forall i | 0 <= i < |cs| ensures cs[i].x == CardX(cs[i].status) {
      assert PositionsOf(cs)[i] == Arrangement(StatusesOf(cs))[i];
    }
  }

  /** Positions after layout depend on the statuses only: when the cards
      were laid out before and their statuses did not change, a layout keeps
      every card where it was, so arrangeCards is idempotent. */
  twostate lemma RelayoutKeepsPositions(cs: seq<TaskCard>)
    requires old(LaidOut(cs)) && LaidOut(cs)
    requires forall i :: 0 <= i < |cs| ==> cs[i].status == old(cs[i].status)
    ensures forall i :: 0 <= i < |cs| ==> cs[i].x == old(cs[i].x) && cs[i].y == old(cs[i].y)
  {
    assert StatusesOf(cs) == old(StatusesOf(cs));
    assert PositionsOf(cs) == old(PositionsOf(cs));
    forall i | 0 <= i < |cs| ensures cs[i].x == old(cs[i].x) && cs[i].y == old(cs[i].y) {
      assert PositionsOf(cs)[i] == old(PositionsOf(cs))[i];
    }
  }

  /** The fields of the cards after an insertion. */
  lemma PersistedInsert(cs: seq<TaskCard>, at: nat, c: TaskCard)
    requires at <= |cs|
    ensures PersistedOf(cs[..at] + [c] + cs[at..]) == PersistedOf(cs)[..at] + [c.Persisted()] + PersistedOf(cs)[at..]
  {
  }

  /** The statuses of the cards after an insertion. */
  lemma StatusesInsert(cs: seq<TaskCard>, at: nat, c: TaskCard)
    requires at <= |cs|
    ensures StatusesOf(cs[..at] + [c] + cs[at..]) == Inserted(StatusesOf(cs), at, c.status)
  {
  }

  lemma MultisetInsert<T>(s: seq<T>, at: nat, x: T)
    requires at <= |s|
    ensures multiset(s[..at] + [x] + s[at..]) == multiset(s) + multiset{x}
  {
    assert s == s[..at] + s[at..];
  }

  lemma MultisetPrefix<T>(s: seq<T>, n: nat)
    requires n < |s|
    ensures multiset(s[..n + 1]) == multiset(s[..n]) + multiset{s[n]}
  {
    assert s[..n + 1] == s[..n] + [s[n]];
  }

  /** Cards whose fields other than the position are unchanged keep their
      saved fields. */
  twostate lemma ContentKept(cs: seq<TaskCard>)
    requires forall i :: 0 <= i < |cs| ==> cs[i].Content() == old(cs[i].Content())
    ensures PersistedOf(cs) == old(PersistedOf(cs)) && StatusesOf(cs) == old(StatusesOf(cs))
    ensures forall c :: c in cs ==> c.Content() == old(c.Content())
  {
    assert forall i :: 0 <= i < |cs| ==> PersistedOf(cs)[i] == old(PersistedOf(cs)[i]);
    assert forall i :: 0 <= i < |cs| ==> StatusesOf(cs)[i] == old(StatusesOf(cs)[i]);
  }

  /** The state of a card just constructed with fields p and id id. */
  function NewCardState(id: string, p: PersistedFields): CardState
  {
    CardState(id, p.title, p.description, p.status, p.priority, p.deadline,
              "", "", 0, [], false, 0.0, 0.0)
  }

  /** The cards left after removing those in sel, in their order. */
  function Without(cs: seq<TaskCard>, sel: set<TaskCard>): (r: seq<TaskCard>)
    ensures |r| <= |cs|
    ensures forall k :: 0 <= k < |r| ==> r[k] in cs && r[k] !in sel
    ensures forall k :: 0 <= k < |cs| && cs[k] !in sel ==> cs[k] in r
    ensures NoDuplicates(cs) ==> NoDuplicates(r)
  {
    if cs == [] then []
    else
      var rest := Without(cs[1..], sel);
      var r := (if cs[0] in sel then [] else [cs[0]]) + rest;
      assert forall k :: 0 < k < |cs| ==> cs[k] in cs[1..];
      assert NoDuplicates(cs) ==> cs[0] !in cs[1..];
      r
  }

  /** Filtering distributes over concatenation: the cards left from a come
      before those left from b, so the filter keeps the cards' order. */
  lemma {:induction false} WithoutConcat(a: seq<TaskCard>, b: seq<TaskCard>, sel: set<TaskCard>)
    ensures Without(a + b, sel) == Without(a, sel) + Without(b, sel)
  {
    if a == [] {
      assert a + b == b;
    } else {
      assert (a + b)[0] == a[0] && (a + b)[1..] == a[1..] + b;
      WithoutConcat(a[1..], b, sel);
    }
  }

  /** Removing a card absent from a list changes nothing. */
  lemma {:induction false} WithoutAbsent(cs: seq<TaskCard>, sel: set<TaskCard>, t: TaskCard)
    requires t !in cs
    ensures Without(cs, sel + {t}) == Without(cs, sel)
  {
    if cs != [] {
      WithoutAbsent(cs[1..], sel, t);
    }
  }

  /** removeItem of one more selected card continues the filtering. */
  lemma {:induction false} RemovedOneWithout(cs: seq<TaskCard>, sel: set<TaskCard>, t: TaskCard)
    requires NoDuplicates(cs) && t !in sel
    ensures RemovedOne(Without(cs, sel), t) == Without(cs, sel + {t})
  {
    if cs != [] {
      var h := cs[0];
      var w := Without(cs[1..], sel);
      assert NoDuplicates(cs[1..]);
      if h in sel {
        assert Without(cs, sel) == w;
        RemovedOneWithout(cs[1..], sel, t);
      } else if h == t {
        assert Without(cs, sel) == [t] + w;
        assert RemovedOne([t] + w, t) == w;
        assert t !in cs[1..];
        WithoutAbsent(cs[1..], sel, t);
      } else {
        assert Without(cs, sel) == [h] + w;
        assert RemovedOne([h] + w, t) == [h] + RemovedOne(w, t);
        RemovedOneWithout(cs[1..], sel, t);
      }
    }
  }

  class Board {
    /** The task cards among the scene's items, in iteration order. */
    var cards: seq<TaskCard>
    /** The rows of the `tasks` table. */
    var table: seq<Row>
    /** m_currentEditCard: the card the dialog edits, null when it adds. */
    var editCard: TaskCard?

    ghost predicate Valid()
      reads this
    {
      NoDuplicates(cards)
    }

    /** The window's start: initDatabase opens the `tasks` table, whose
        rows are stored (none when the table was just created), and
        loadTasks fills the board from it as LoadTasks does. */
    constructor (stored: seq<Row>, now: int, newId: nat -> string, at: nat -> nat)
      ensures Valid() && table == stored && editCard == null
      ensures multiset(PersistedOf(cards)) == multiset(Loaded(stored, now))
      ensures forall i :: 0 <= i < |cards| ==> fresh(cards[i])
      ensures forall i :: 0 <= i < |cards| ==> cards[i].Content() == NewCardState(cards[i].id, cards[i].Persisted())
      ensures LaidOut(cards)
    {
      cards, table, editCard := [], stored, null;
      new;
      LoadTasks(now, newId, at);
    }

    /** Stacks the cards of each column from its top, in iteration order;
        nothing but positions changes. */
    method ArrangeCards()
      requires Valid()
      modifies cards`x, cards`y
      ensures LaidOut(cards)
      ensures forall i :: 0 <= i < |cards| ==> cards[i].Content() == old(cards[i].Content())
    {
      ghost var ss := StatusesOf(cards);
      StackColumns(ss);
      assert forall k :: 0 <= k < |cards| ==> cards[k].status == ss[k];
      assert StatusesOf(cards) == ss;
      assert forall k :: 0 <= k < |cards| ==> PositionsOf(cards)[k] == Arrangement(ss)[k];
    }

    /** The loop of arrangeCards, with one running y per column; ss are the
        cards' statuses. */
    method StackColumns(ghost ss: seq<Status>)
      requires Valid() && ss == StatusesOf(cards)
      modifies cards`x, cards`y
      ensures forall k :: 0 <= k < |cards| ==>
                cards[k].x == CardX(ss[k]) && cards[k].y == SlotY(Count(ss[..k], ss[k]))
    {
      var cs := cards;
      var todoY := ColumnTop + FirstCardOffset;
      var inProgressY := ColumnTop + FirstCardOffset;
      var doneY := ColumnTop + FirstCardOffset;
      for i := 0 to |cs|
        invariant todoY == SlotY(Count(ss[..i], Todo))
        invariant inProgressY == SlotY(Count(ss[..i], InProgress))
        invariant doneY == SlotY(Count(ss[..i], Done))
        invariant forall k :: 0 <= k < i ==>
                    cs[k].x == CardX(ss[k]) && cs[k].y == SlotY(Count(ss[..k], ss[k]))
      {
        var card := cs[i];
        assert card.status == ss[i];
        SlotStep(ss, i);
        var x, y;
        match card.status {
          case Todo =>
            x, y := CardX(Todo), todoY;
            todoY := todoY + CardHeight + CardSpacing;
          case InProgress =>
            x, y := CardX(InProgress), inProgressY;
            inProgressY := inProgressY + CardHeight + CardSpacing;
          case Done =>
            x, y := CardX(Done), doneY;
            doneY := doneY + CardHeight + CardSpacing;
        }
        assert forall k :: 0 <= k < |cs| && k != i ==> cs[k] != card;
        card.MoveTo(x, y);
      }
    }

    /** Replaces the table by one row per card, in iteration order. */
    method SaveTasks()
      modifies this`table
      ensures table == EncodeAll(PersistedOf(cards))
    {
      table := [];
      for i := 0 to |cards|
        invariant |table| == i
        invariant forall k :: 0 <= k < i ==> table[k] == EncodeRow(cards[k].Persisted())
      {
        table := table + [EncodeRow(cards[i].Persisted())];
      }
    }

    /** Constructs a card with id and fields p and adds it to the scene,
        where it appears at index at of the iteration order. */
    method AddNewCard(id: string, p: PersistedFields, at: nat) returns (card: TaskCard)
      requires Valid() && at <= |cards|
      modifies this`cards
      ensures Valid() && fresh(card) && cards == old(cards)[..at] + [card] + old(cards)[at..]
      ensures card.Content() == NewCardState(id, p) && card.Persisted() == p
      ensures forall c :: c in cards ==> c == card || c in old(cards)
    {
      card := new TaskCard(id, p.title, p.description, p.priority, p.status, p.deadline);
      cards := cards[..at] + [card] + cards[at..];
    }

    /** Discards every card, creates one card per row (the k-th created card
        gets id newId(k) and appears at index at(k) of the iteration order,
        or last when at(k) is past the end), or the four examples when no row
        was read, and lays them out; the table itself is not written. */
    method LoadTasks(now: int, newId: nat -> string, at: nat -> nat)
      modifies this`cards
      ensures Valid() && unchanged(this`table, this`editCard)
      ensures multiset(PersistedOf(cards)) == multiset(Loaded(table, now))
      ensures forall i :: 0 <= i < |cards| ==>
                fresh(cards[i]) && cards[i].Content() == NewCardState(cards[i].id, cards[i].Persisted())
      ensures LaidOut(cards)
    {
      CreateCards(now, newId, at);
      label created:
      ArrangeCards();
      ContentKept@created(cards);
    }

    /** loadTasks up to the layout: the cards created from the rows, or the
        examples when no row was read. */
    method CreateCards(now: int, newId: nat -> string, at: nat -> nat)
      modifies this`cards
      ensures Valid()
      ensures multiset(PersistedOf(cards)) == multiset(Loaded(table, now))
      ensures forall i :: 0 <= i < |cards| ==> fresh(cards[i])
      ensures forall i :: 0 <= i < |cards| ==> cards[i].Content() == NewCardState(cards[i].id, cards[i].Persisted())
    {
      var count := AddRowCards(newId, at);
      if count == 0 {
        AddExampleCards(now, newId, at);
      }
      forall i | 0 <= i < |cards|
        ensures fresh(cards[i]) && cards[i].Content() == NewCardState(cards[i].id, cards[i].Persisted())
      {
        assert cards[i] in cards;
      }
    }

    /** The first part of loadTasks: every card is discarded and one card is
        created per row; count is the number of rows read. */
    method AddRowCards(newId: nat -> string, at: nat -> nat) returns (count: nat)
      modifies this`cards
      ensures Valid() && count == |table| == |cards|
      ensures forall c :: c in cards ==> fresh(c)
      ensures multiset(PersistedOf(cards)) == multiset(DecodeAll(table))
      ensures forall c :: c in cards ==> c.Content() == NewCardState(c.id, c.Persisted())
    {
      cards := [];
      AddCards(DecodeAll(table), newId, at);
      count := |table|;
    }

    /** The example block of loadTasks: the four examples created one by one. */
    method AddExampleCards(now: int, newId: nat -> string, at: nat -> nat)
      requires cards == []
      modifies this`cards
      ensures Valid() && |cards| == 4
      ensures forall c :: c in cards ==> fresh(c)
      ensures multiset(PersistedOf(cards)) == multiset(SeedTasks(now))
      ensures forall c :: c in cards ==> c.Content() == NewCardState(c.id, c.Persisted())
    {
      AddCards(SeedTasks(now), newId, at);
    }

    /** Creates one card per element of ps, in order: the k-th gets id
        newId(k) and is put at index at(k) of the iteration order, or last
        when at(k) is past the end. */
    method AddCards(ps: seq<PersistedFields>, newId: nat -> string, at: nat -> nat)
      requires cards == []
      modifies this`cards
      ensures Valid() && |cards| == |ps|
      ensures forall c :: c in cards ==> fresh(c)
      ensures multiset(PersistedOf(cards)) == multiset(ps)
      ensures forall c :: c in cards ==> c.Content() == NewCardState(c.id, c.Persisted())
    {
      var count := 0;
      while count < |ps|
        invariant count <= |ps| && |cards| == count && Valid()
        invariant forall c :: c in cards ==> fresh(c)
        invariant multiset(PersistedOf(cards)) == multiset(ps[..count])
        invariant forall c :: c in cards ==> c.Content() == NewCardState(c.id, c.Persisted())
      {
        AddOneCard(newId(count), ps[count], at(count));
        MultisetPrefix(ps, count);
        count := count + 1;
      }
      assert ps[..count] == ps;
    }

    /** One card creation of loadTasks, at index at of the iteration order
        or last. */
    method AddOneCard(id: string, p: PersistedFields, at: nat)
      requires Valid()
      modifies this`cards
      ensures Valid() && |cards| == |old(cards)| + 1
      ensures var k := Min(at, |old(cards)|);
                && (forall i :: 0 <= i < k ==> cards[i] == old(cards)[i])
                && fresh(cards[k])
                && (forall i :: k <= i < |old(cards)| ==> cards[i + 1] == old(cards)[i])
      ensures forall c :: c in cards ==> c in old(cards) || fresh(c)
      ensures multiset(PersistedOf(cards)) == multiset(old(PersistedOf(cards))) + multiset{p}
      ensures forall c :: c in cards && c !in old(cards) ==>
                c.Persisted() == p && c.Content() == NewCardState(c.id, p)
    {
      ghost var ps := PersistedOf(cards);
      var k := Min(at, |cards|);
      var card := AddNewCard(id, p, k);
      PersistedInsert(old(cards), k, card);
      MultisetInsert(ps, k, p);
    }

    /** Closing the window saves (the destructor) and the next start loads:
        a non-empty board comes back with the same saved fields, deadlines
        cut to whole seconds, with fresh ids and no progress, assignee or
        dependencies; an empty board comes back as the four examples. */
    method Restart(now: int, newId: nat -> string, at: nat -> nat)
      modifies this`cards, this`table
      ensures Valid() && LaidOut(cards) && table == EncodeAll(old(PersistedOf(cards)))
      ensures |old(cards)| > 0 ==>
                multiset(PersistedOf(cards))
                == multiset(seq(|old(cards)|, i requires 0 <= i < |old(cards)| => Normalized(old(PersistedOf(cards))[i])))
      ensures |old(cards)| == 0 ==> multiset(PersistedOf(cards)) == multiset(SeedTasks(now))
      ensures forall i :: 0 <= i < |cards| ==>
                fresh(cards[i]) && cards[i].Content() == NewCardState(cards[i].id, cards[i].Persisted())
    {
      ghost var saved := PersistedOf(cards);
      SaveTasks();
      SaveLoadRoundTrip(saved, now);
      LoadTasks(now, newId, at);
    }

    /** createNewTask: a card with the dialog's fields is added to the scene
        (at index at of the iteration order) and the board is laid out again.
        On a laid-out board only the cards of the new card's column that come
        after it move, each down by one slot. */
    method CreateNewTask(id: string, p: PersistedFields, at: nat)
      requires Valid() && at <= |cards|
      modifies this`cards, cards`x, cards`y
      ensures Valid() && LaidOut(cards)
      ensures |cards| == |old(cards)| + 1
      ensures cards == old(cards)[..at] + [cards[at]] + old(cards)[at..]
      ensures fresh(cards[at]) && cards[at].Content() == NewCardState(id, p)
      ensures forall c :: c in old(cards) ==> c.Content() == old(c.Content())
      ensures old(LaidOut(cards)) ==> NewPositions(old(PositionsOf(cards)), old(StatusesOf(cards)), at, p.status, PositionsOf(cards))
    {
      ghost var ss := StatusesOf(cards);
      ghost var ps := PositionsOf(cards);
      ghost var wasLaidOut := LaidOut(cards);
      var card := AddNewCard(id, p, at);
      StatusesInsert(old(cards), at, card);
      assert forall i :: 0 <= i < |cards| ==> cards[i] in old(cards) || fresh(cards[i]);
      RelayoutAfterInsert(ss, ps, wasLaidOut, at, p.status);
    }

    /** The arrangeCards call of createNewTask, after a card of status t was
        inserted at index at into cards of statuses ss and positions ps. */
    method RelayoutAfterInsert(ghost ss: seq<Status>, ghost ps: seq<Pos>, ghost wasLaidOut: bool,
                               ghost at: nat, ghost t: Status)
      requires Valid() && at <= |ss| == |ps| && StatusesOf(cards) == Inserted(ss, at, t)
      requires wasLaidOut ==> ps == Arrangement(ss)
      modifies cards`x, cards`y
      ensures LaidOut(cards) && StatusesOf(cards) == Inserted(ss, at, t)
      ensures forall c :: c in cards ==> c.Content() == old(c.Content())
      ensures wasLaidOut ==> NewPositions(ps, ss, at, t, PositionsOf(cards))
    {
      label before:
      ArrangeCards();
      ContentKept@before(cards);
      if wasLaidOut {
        ArrangementInsert(ss, at, t);
      }
    }

    /** onAddButtonClicked: the dialog will add a card, and shows the
        reset form (now is the current time). */
    method AddButtonClicked(now: int) returns (form: Dialog.Form)
      modifies this`editCard
      ensures editCard == null && form == Dialog.NewTaskForm(now)
    {
      editCard := null;
      form := Dialog.NewTaskForm(now);
    }

    /** onCardDoubleClicked: the dialog will edit card and shows its fields;
        shown is what the date-time editor held before, and plain what the
        description editor gives back for a text it was set to. */
    method CardDoubleClicked(card: TaskCard, shown: int, plain: string -> string) returns (form: Dialog.Form)
      modifies this`editCard
      ensures editCard == card && form == Dialog.EditForm(card.Persisted(), shown, plain)
    {
      editCard := card;
      form := Dialog.EditForm(card.Persisted(), shown, plain);
    }

    /** The dialog's rejected handler: the next OK adds a card. */
    method DialogRejected()
      modifies this`editCard
      ensures editCard == null
    {
      editCard := null;
    }

    /** onTaskDialogAccepted: a blank title changes nothing; otherwise the
        edited card gets the five fields (or a new card is created with
        them, at index at of the iteration order), the board is laid out and
        saved. */
    method AcceptTaskDialog(form: Dialog.Form, newId: string, at: nat)
      requires Valid()
      requires editCard != null ==> editCard in cards
      requires editCard == null ==> at <= |cards|
      modifies this`editCard, this`cards, this`table, cards`title, cards`description,
               cards`priority, cards`status, cards`deadline, cards`x, cards`y
      ensures Valid()
      ensures Dialog.Accept(form).None? ==>
                cards == old(cards) && table == old(table) && editCard == old(editCard)
                && forall c :: c in cards ==> c.State() == old(c.State())
      ensures Dialog.Accept(form).Some? ==>
                editCard == null && LaidOut(cards) && table == EncodeAll(PersistedOf(cards))
      ensures Dialog.Accept(form).Some? && old(editCard) != null ==>
                cards == old(cards)
                && old(editCard).Persisted() == Dialog.Accept(form).value
                && old(editCard).id == old(editCard.id) && old(editCard).progress == old(editCard.progress)
                && forall c :: c in cards && c != old(editCard) ==> c.Content() == old(c.Content())
      ensures Dialog.Accept(form).Some? && old(editCard) == null ==>
                |cards| == |old(cards)| + 1 && cards == old(cards)[..at] + [cards[at]] + old(cards)[at..]
                && fresh(cards[at]) && cards[at].Content() == NewCardState(newId, Dialog.Accept(form).value)
                && cards[at].Persisted() == Dialog.Accept(form).value
                && forall c :: c in old(cards) ==> c.Content() == old(c.Content())
    {
      var accepted := Dialog.Accept(form);
      if accepted.None? {
        return;
      }
      var e := accepted.value;
      if editCard != null {
        var card := editCard;
        editCard := null;
        EditCard(card, e);
      } else {
        CreateNewTask(newId, e, at);
      }
      SaveTasks();
    }

    /** The edit branch of onTaskDialogAccepted: card gets the five fields
        of e through its setters, then the board is laid out. */
    method EditCard(card: TaskCard, e: PersistedFields)
      requires Valid() && card in cards
      modifies card`title, card`description, card`priority, card`status, card`deadline, cards`x, cards`y
      ensures LaidOut(cards)
      ensures card.Content() == old(card.Content()).(title := e.title, description := e.description,
                                                    status := e.status, priority := e.priority,
                                                    deadline := e.deadline)
      ensures forall c :: c in cards && c != card ==> c.Content() == old(c.Content())
    {
      card.SetTitle(e.title);
      card.SetDescription(e.description);
      card.SetPriority(e.priority);
      card.SetStatus(e.status);
      card.SetDeadline(e.deadline);
      label edited:
      ArrangeCards();
      ContentKept@edited(cards);
    }

    /** updateCardStatusByPosition, after card was dropped at its current
        x: if the band of x is the card's status nothing happens (the card
        stays where it was dropped); otherwise only its status changes, the
        board is laid out and saved. Either way the card ends up in the band
        of its status. */
    method UpdateCardStatusByPosition(card: TaskCard, sceneWidth: real)
      requires Valid() && card in cards
      modifies this`table, card`status, cards`x, cards`y
      ensures Valid()
      ensures StatusFromPosition(old(card.x), sceneWidth) == old(card.status) ==>
                table == old(table) && forall c :: c in cards ==> c.State() == old(c.State())
      ensures StatusFromPosition(old(card.x), sceneWidth) != old(card.status) ==>
                card.status == StatusFromPosition(old(card.x), sceneWidth)
                && LaidOut(cards) && table == EncodeAll(PersistedOf(cards))
                && card.Content() == old(card.Content()).(status := card.status)
                && forall c :: c in cards && c != card ==> c.Content() == old(c.Content())
      ensures 1335.0 / 2.0 < sceneWidth <= 2475.0 / 2.0 ==>
                StatusFromPosition(card.x, sceneWidth) == card.status
    {
      var newStatus := StatusFromPosition(card.x, sceneWidth);
      if card.status != newStatus {
        card.SetStatus(newStatus);
        ArrangeCards();
        SaveTasks();
        if 1335.0 / 2.0 < sceneWidth <= 2475.0 / 2.0 {
          CardXInBandIff(sceneWidth);
          var i :| 0 <= i < |cards| && cards[i] == card;
          assert PositionsOf(cards)[i] == Arrangement(StatusesOf(cards))[i];
        }
      }
    }

    /** onDeleteButtonClicked: removes each selected card from the scene,
        lays out the rest and saves them. */
    method DeleteSelected(selection: set<TaskCard>)
      requires Valid()
      modifies this`cards, this`table, cards`x, cards`y
      ensures Valid() && cards == Without(old(cards), selection)
      ensures LaidOut(cards) && table == EncodeAll(PersistedOf(cards))
      ensures forall c :: c in cards ==> c.Content() == old(c.Content())
    {
      RemoveItems(selection);
      label removed:
      ArrangeCards();
      assert forall c :: c in cards ==> c.Content() == old@removed(c.Content());
      SaveTasks();
    }

    /** The removal loop of onDeleteButtonClicked: QGraphicsScene::removeItem
        for each selected card, in any order. */
    method RemoveItems(selection: set<TaskCard>)
      requires Valid()
      modifies this`cards
      ensures Valid() && cards == Without(old(cards), selection)
    {
      var rest := selection;
      WithoutNothing(cards);
      assert selection - rest == {};
      while rest != {}
        invariant rest <= selection
        invariant cards == Without(old(cards), selection - rest) && Valid()
      {
        var t :| t in rest;
        RemovedOneWithout(old(cards), selection - rest, t);
        RemovedOneNoDuplicates(cards, t);
        assert selection - rest + {t} == selection - (rest - {t});
        cards := RemovedOne(cards, t);
        rest := rest - {t};
      }
      assert selection - rest == selection;
    }

    /** onClearButtonClicked: empties the table and removes every card. */
    method ClearAll()
      modifies this`cards, this`table
      ensures Valid() && cards == [] && table == []
    {
      table := [];
      cards := [];
    }
  }

  lemma {:induction false} WithoutNothing(cs: seq<TaskCard>)
    ensures Without(cs, {}) == cs
  {
    if cs != [] {
      WithoutNothing(cs[1..]);
    }
  }
}

=== FILE: board_layout.dfy ===
/** The board's geometry (mainwindow.cpp): three columns of fixed width, the
    band rule that maps an x coordinate to a status, and the stacking layout
    that arrangeCards produces. Positions are exact reals; the source's
    qreal arithmetic is taken to be exact. */
module BoardLayout {
  import opened TaskTypes

  // Column rectangles built by setupColumns.
  const ColumnLeft: real := 40.0
  const ColumnWidth: real := 350.0
  const ColumnSpacing: real := 30.0
  const ColumnTop: real := 70.0
  // Stacking parameters of arrangeCards; a card is 200 x 120.
  const FirstCardOffset: real := 20.0
  const CardInset: real := 25.0
  const CardHeight: real := 120.0
  const CardSpacing: real := 20.0
  /** Width of the view's scene rectangle. */
  const SceneWidth: real := 1150.0

  /** Left edge of the column rectangle of status s: 40, 420 or 800; the
      columns are in the order of the status codes. */
  function ColumnX(s: Status): real
  {
    ColumnLeft + (ColumnWidth + ColumnSpacing) * StatusCode(s) as real
  }

  /** The x every card of status s is placed at: 65, 445 or 825. */
  function CardX(s: Status): (x: real)
    ensures ColumnX(s) < x && x + 200.0 < ColumnX(s) + ColumnWidth
  {
    ColumnX(s) + CardInset
  }

  /** The y of the k-th card (from 0) stacked in a column. */
  function SlotY(k: nat): real
  {
    ColumnTop + FirstCardOffset + k as real * (CardHeight + CardSpacing)
  }

  /** getStatusFromPosition: the band of the scene an x coordinate falls in,
      each band a third of the scene width w; the comparisons are strict, so
      x == w/3 is already InProgress. For a non-negative width the three
      bands are [0, w/3), [w/3, 2w/3) and [2w/3, w], extended to all x. */
  function StatusFromPosition(x: real, w: real): (s: Status)
    ensures w >= 0.0 ==> (s == Todo <==> x < w / 3.0)
    ensures w >= 0.0 ==> (s == InProgress <==> w / 3.0 <= x < 2.0 * w / 3.0)
    ensures w >= 0.0 ==> (s == Done <==> 2.0 * w / 3.0 <= x)
  {
    var columnWidth := w / 3.0;
    if x < columnWidth then Todo
    else if x < 2.0 * columnWidth then InProgress
    else Done
  }

  /** Moving right never moves a card to an earlier column, whatever the width. */
  lemma BandsMonotonic(x1: real, x2: real, w: real)
    requires x1 <= x2
    ensures StatusCode(StatusFromPosition(x1, w)) <= StatusCode(StatusFromPosition(x2, w))
  {
  }

  /** Number of occurrences of s in ss. */
  function Count(ss: seq<Status>, s: Status): nat
  {
    if ss == [] then 0
    else Count(ss[..|ss| - 1], s) + (if ss[|ss| - 1] == s then 1 else 0)
  }

  lemma CountSnoc(ss: seq<Status>, t: Status)
    ensures forall s :: Count(ss + [t], s) == Count(ss, s) + (if t == s then 1 else 0)
  {
    assert (ss + [t])[..|ss|] == ss;
  }

  /** One step of a running column y: it grows by a card and a gap exactly
      when the next card is of that column's status. */
  lemma {:induction false} SlotStep(ss: seq<Status>, i: nat)
    requires i < |ss|
    ensures forall s :: SlotY(Count(ss[..i + 1], s))
                        == SlotY(Count(ss[..i], s)) + (if ss[i] == s then CardHeight + CardSpacing else 0.0)
  {
    assert ss[..i + 1] == ss[..i] + [ss[i]];
    CountSnoc(ss[..i], ss[i]);
  }

  datatype Pos = Pos(x: real, y: real)

  /** The positions arrangeCards gives cards whose statuses are ss, in
      iteration order: each card goes to its column's x, below the cards of
      the same status that come before it. */
  function Arrangement(ss: seq<Status>): (ps: seq<Pos>)
    ensures |ps| == |ss|
  {
    seq(|ss|, i requires 0 <= i < |ss| => Pos(CardX(ss[i]), SlotY(Count(ss[..i], ss[i]))))
  }

  /** The card x of every column lies in that column's band exactly when the
      scene is wider than 667.5 and at most 1237.5 (1150 among them). */
  lemma CardXInBandIff(w: real)
    ensures (forall s: Status :: StatusFromPosition(CardX(s), w) == s)
        <==> 1335.0 / 2.0 < w <= 2475.0 / 2.0
  {
    if forall s: Status :: StatusFromPosition(CardX(s), w) == s {
      assert StatusFromPosition(CardX(InProgress), w) == InProgress;
      assert StatusFromPosition(CardX(Done), w) == Done;
    }
  }

  /** After layout, every card sits in the band of its own status. */
  lemma {:induction false} ArrangementAgreesWithBands(ss: seq<Status>, w: real)
    requires 1335.0 / 2.0 < w <= 2475.0 / 2.0
    ensures forall i :: 0 <= i < |ss| ==> StatusFromPosition(Arrangement(ss)[i].x, w) == ss[i]
  {
    CardXInBandIff(w);
    forall i | 0 <= i < |ss| ensures StatusFromPosition(Arrangement(ss)[i].x, w) == ss[i] {
      assert Arrangement(ss)[i].x == CardX(ss[i]);
    }
  }

  lemma ArrangementAgreesAtSceneWidth(ss: seq<Status>)
    ensures forall i :: 0 <= i < |ss| ==> StatusFromPosition(Arrangement(ss)[i].x, SceneWidth) == ss[i]
  {
    ArrangementAgreesWithBands(ss, SceneWidth);
  }

  /** Count never decreases along a prefix, and grows past each occurrence. */
  lemma {:induction false} CountGrows(ss: seq<Status>, i: nat, j: nat)
    requires i < j <= |ss|
    ensures Count(ss[..j], ss[i]) >= Count(ss[..i], ss[i]) + 1
  {
    if j == i + 1 {
      assert ss[..j][..|ss[..j]| - 1] == ss[..i];
    } else {
      CountGrows(ss, i, j - 1);
      assert ss[..j][..|ss[..j]| - 1] == ss[..j - 1];
    }
  }

  /** Two cards of one column never overlap: a later card is stacked at least
      a card's height plus the gap below an earlier one. */
  lemma {:induction false} ArrangementNoOverlap(ss: seq<Status>, i: nat, j: nat)
    requires i < j < |ss| && ss[i] == ss[j]
    ensures Arrangement(ss)[i].x == Arrangement(ss)[j].x
    ensures Arrangement(ss)[j].y >= Arrangement(ss)[i].y + CardHeight + CardSpacing
  {
    CountGrows(ss, i, j);
  }

  /** Counting distributes over concatenation. */
  lemma {:induction false} CountConcat(a: seq<Status>, b: seq<Status>, s: Status)
    ensures Count(a + b, s) == Count(a, s) + Count(b, s)
  {
    if b == [] {
      assert a + b == a;
    } else {
      var b' := b[..|b| - 1];
      assert (a + b)[..|a + b| - 1] == a + b';
      assert (a + b)[|a + b| - 1] == b[|b| - 1];
      CountConcat(a, b', s);
      assert Count(a + b, s) == Count(a + b', s) + (if b[|b| - 1] == s then 1 else 0);
    }
  }

  /** Statuses after a card of status t is inserted at index at. */
  function Inserted(ss: seq<Status>, at: nat, t: Status): (r: seq<Status>)
    requires at <= |ss|
    ensures |r| == |ss| + 1 && r[at] == t
    ensures forall i :: 0 <= i < at ==> r[i] == ss[i]
    ensures forall i :: at <= i < |ss| ==> r[i + 1] == ss[i]
  {
    ss[..at] + [t] + ss[at..]
  }

  /** The count of s above the card that was at index i, after the insertion. */
  lemma {:induction false} CountAfterInsert(ss: seq<Status>, at: nat, t: Status, i: nat, s: Status)
    requires at <= i < |ss|
    ensures Count(Inserted(ss, at, t)[..i + 1], s) == Count(ss[..i], s) + (if t == s then 1 else 0)
  {
    var r := Inserted(ss, at, t);
    assert r[..i + 1] == (ss[..at] + [t]) + ss[at..i];
    assert ss[..i] == ss[..at] + ss[at..i];
    CountConcat(ss[..at] + [t], ss[at..i], s);
    CountConcat(ss[..at], ss[at..i], s);
    CountSnoc(ss[..at], t);
  }

  /** A card before the insertion point keeps its position. */
  lemma InsertBefore(ss: seq<Status>, at: nat, t: Status, i: nat)
    requires i < at <= |ss|
    ensures Arrangement(Inserted(ss, at, t))[i] == Arrangement(ss)[i]
  {
    assert Inserted(ss, at, t)[..i] == ss[..i];
  }

  /** A card after the insertion point moves one slot down exactly when it
      has the inserted card's status. */
  lemma InsertAfter(ss: seq<Status>, at: nat, t: Status, i: nat)
    requires at <= i < |ss|
    ensures Arrangement(Inserted(ss, at, t))[i + 1]
            == if ss[i] == t then Arrangement(ss)[i].(y := Arrangement(ss)[i].y + CardHeight + CardSpacing)
               else Arrangement(ss)[i]
  {
    CountAfterInsert(ss, at, t, i, ss[i]);
  }

  /** How positions change when a card of status t is inserted at index at
      into a laid-out board with positions ps and statuses ss: earlier cards
      and cards of other columns stay, the new card goes below the earlier
      cards of its column, and later cards of its column move down one slot. */
  ghost predicate NewPositions(ps: seq<Pos>, ss: seq<Status>, at: nat, t: Status, qs: seq<Pos>)
    requires |ps| == |ss| && at <= |ss| && |qs| == |ss| + 1
  {
    && (forall i :: 0 <= i < at ==> qs[i] == ps[i])
    && qs[at] == Pos(CardX(t), SlotY(Count(ss[..at], t)))
    && (forall i :: at <= i < |ss| && ss[i] != t ==> qs[i + 1] == ps[i])
    && (forall i :: at <= i < |ss| && ss[i] == t ==> qs[i + 1] == ps[i].(y := ps[i].y + CardHeight + CardSpacing))
  }

  /** The columns are independent: inserting a card moves no card before it
      and no card of another status, and moves each later card of its own
      status down by one slot; the new card goes below the earlier cards of
      its status. */
  lemma {:induction false} ArrangementInsert(ss: seq<Status>, at: nat, t: Status)
    requires at <= |ss|
    ensures NewPositions(Arrangement(ss), ss, at, t, Arrangement(Inserted(ss, at, t)))
  {
    forall i | 0 <= i < at ensures Arrangement(Inserted(ss, at, t))[i] == Arrangement(ss)[i] {
      InsertBefore(ss, at, t, i);
    }
    assert Inserted(ss, at, t)[..at] == ss[..at];
    forall i | at <= i < |ss|
      ensures Arrangement(Inserted(ss, at, t))[i + 1]
              == if ss[i] == t then Arrangement(ss)[i].(y := Arrangement(ss)[i].y + CardHeight + CardSpacing)
                 else Arrangement(ss)[i]
    {
      InsertAfter(ss, at, t, i);
    }
  }
}

=== FILE: dialog.dfy ===
/** What the task dialog's OK button checks and reads (mainwindow.cpp):
    trimming of the text fields, rejection of a blank title, and the mapping
    from combo-box indexes to enum values. */
module Dialog {
  import opened TaskTypes
  import opened TaskCards

  /** QChar::isSpace: the ASCII controls 9..13, space, U+0085, U+00A0 and
      the Unicode separators. */
  predicate IsSpace(c: char)
  {
    var n := c as int;
    (9 <= n <= 13) || n == 0x20 || n == 0x85 || n == 0xA0 || n == 0x1680
    || (0x2000 <= n <= 0x200A) || n == 0x2028 || n == 0x2029 || n == 0x202F
    || n == 0x205F || n == 0x3000
  }

  predicate AllSpace(s: string)
  {
    forall k :: 0 <= k < |s| ==> IsSpace(s[k])
  }

  function LeadingSpaces(s: string): (n: nat)
    ensures n <= |s|
    ensures forall k :: 0 <= k < n ==> IsSpace(s[k])
    ensures n < |s| ==> !IsSpace(s[n])
  {
    if s == [] || !IsSpace(s[0]) then 0
    else 1 + LeadingSpaces(s[1..])
  }

  function TrailingSpaces(s: string): (n: nat)
    ensures n <= |s|
    ensures forall k :: |s| - n <= k < |s| ==> IsSpace(s[k])
    ensures n < |s| ==> !IsSpace(s[|s| - n - 1])
  {
    if s == [] || !IsSpace(s[|s| - 1]) then 0
    else 1 + TrailingSpaces(s[..|s| - 1])
  }

  /** r is s with a whitespace prefix of length i and a whitespace suffix cut off. */
  predicate TrimAt(s: string, r: string, i: nat)
  {
    && i + |r| <= |s| && r == s[i..i + |r|]
    && (forall k :: 0 <= k < i ==> IsSpace(s[k]))
    && (forall k :: i + |r| <= k < |s| ==> IsSpace(s[k]))
  }

  /** QString::trimmed. */
  function Trimmed(s: string): (r: string)
    ensures exists i :: TrimAt(s, r, i)
    ensures r == [] <==> AllSpace(s)
    ensures r != [] ==> !IsSpace(r[0]) && !IsSpace(r[|r| - 1])
  {
    var a := LeadingSpaces(s);
    if a == |s| then
      assert TrimAt(s, [], a);
      []
    else
      var b := TrailingSpaces(s);
      assert b < |s| - a;
      var r := s[a..|s| - b];
      assert TrimAt(s, r, a);
      assert !IsSpace(s[a]);
      r
  }

  /** Trimming a trimmed string changes nothing. */
  lemma TrimmedIdempotent(s: string)
    ensures Trimmed(Trimmed(s)) == Trimmed(s)
  {
    var r := Trimmed(s);
    if r != [] {
      assert LeadingSpaces(r) == 0 && TrailingSpaces(r) == 0;
      assert r[0..|r| - 0] == r;
    }
  }

  /** The priority combo: 0 Low, 1 Medium, 2 High; any other index Medium. */
  function PriorityFromIndex(i: int): (p: Priority)
    ensures p == Low <==> i == 0
    ensures p == High <==> i == 2
  {
    match i
    case 0 => Low
    case 1 => Medium
    case 2 => High
    case _ => Medium
  }

  /** The status combo: 0 Todo, 1 InProgress, 2 Done; any other index Todo. */
  function StatusFromIndex(i: int): (s: Status)
    ensures s == InProgress <==> i == 1
    ensures s == Done <==> i == 2
  {
    match i
    case 0 => Todo
    case 1 => InProgress
    case 2 => Done
    case _ => Todo
  }

  /** The index the edit dialog selects for a card's priority and status. */
  function PriorityIndex(p: Priority): (i: int)
    ensures 0 <= i <= 2 && PriorityFromIndex(i) == p
  {
    match p
    case Low => 0
    case Medium => 1
    case High => 2
  }

  function StatusIndex(s: Status): (i: int)
    ensures 0 <= i <= 2 && StatusFromIndex(i) == s
  {
    match s
    case Todo => 0
    case InProgress => 1
    case Done => 2
  }

  /** Filling the form from a card and pressing OK keeps priority and status. */
  lemma ComboRoundTrip(p: Priority, s: Status, i: int)
    ensures PriorityFromIndex(PriorityIndex(p)) == p
    ensures StatusFromIndex(StatusIndex(s)) == s
    ensures 0 <= i <= 2 ==> PriorityIndex(PriorityFromIndex(i)) == i && StatusIndex(StatusFromIndex(i)) == i
  {
  }

  /** The dialog's inputs when OK is pressed; the date-time editor always
      holds a valid date-time, given in milliseconds. */
  datatype Form = Form(title: string, description: string,
                       priorityIndex: int, statusIndex: int, deadline: int)

  /** The validation of onTaskDialogAccepted: a blank title is refused,
      otherwise both texts are trimmed and the indexes mapped, giving the
      fields a card is created or edited with. */
  function Accept(f: Form): (e: Option<PersistedFields>)
    ensures e.None? <==> AllSpace(f.title)
    ensures e.Some? ==> e.value.title != [] && e.value.title == Trimmed(f.title)
    ensures e.Some? ==> e.value.description == Trimmed(f.description)
    ensures e.Some? ==> e.value.priority == PriorityFromIndex(f.priorityIndex)
    ensures e.Some? ==> e.value.status == StatusFromIndex(f.statusIndex)
    ensures e.Some? ==> e.value.deadline == At(f.deadline)
  {
    var title := Trimmed(f.title);
    if title == [] then None
    else Some(PersistedFields(title, Trimmed(f.description), StatusFromIndex(f.statusIndex),
                              PriorityFromIndex(f.priorityIndex), At(f.deadline)))
  }

  /** The form onAddButtonClicked shows: empty texts, Low, Todo and a
      deadline seven days after now. */
  function NewTaskForm(now: int): (f: Form)
    ensures f.title == [] && f.description == []
    ensures PriorityFromIndex(f.priorityIndex) == Low && StatusFromIndex(f.statusIndex) == Todo
    ensures f.deadline == now + 7 * MsecsPerDay
  {
    Form("", "", 0, 0, now + 7 * MsecsPerDay)
  }

  /** Pressing OK on the untouched add form is refused. */
  lemma NewTaskFormRefused(now: int)
    ensures Accept(NewTaskForm(now)).None?
  {
  }

  /** The form onCardDoubleClicked fills from a card's fields. The title
      editor is a line edit and shows the title verbatim. The description
      editor is a rich-text editor: plain(d) is what its toPlainText gives
      back after setText(d), which may render d as HTML. Setting an invalid
      date-time on the date editor is ignored, so a card without a deadline
      shows the editor's previous value, shown. */
  function EditForm(p: PersistedFields, shown: int, plain: string -> string): (f: Form)
    ensures f.title == p.title && f.description == plain(p.description)
    ensures PriorityFromIndex(f.priorityIndex) == p.priority
    ensures StatusFromIndex(f.statusIndex) == p.status
    ensures p.deadline.IsValid() ==> At(f.deadline) == p.deadline
  {
    ComboRoundTrip(p.priority, p.status, 0);
    Form(p.title, plain(p.description), PriorityIndex(p.priority), StatusIndex(p.status),
         if p.deadline.IsValid() then p.deadline.msecs else shown)
  }

  /** Opening a card whose title is trimmed and not blank, and pressing OK
      unchanged, gives back its fields, except that the description becomes
      the trimmed plain text of the editor and a missing deadline becomes the
      shown one. */
  lemma {:induction false} EditUnchanged(p: PersistedFields, shown: int, plain: string -> string)
    requires Trimmed(p.title) == p.title != []
    ensures p.deadline.IsValid() ==>
              Accept(EditForm(p, shown, plain)) == Some(p.(description := Trimmed(plain(p.description))))
    ensures !p.deadline.IsValid() ==>
              Accept(EditForm(p, shown, plain))
              == Some(p.(description := Trimmed(plain(p.description)), deadline := At(shown)))
  {
    ComboRoundTrip(p.priority, p.status, 0);
  }

  /** Reopening an edited card and pressing OK again changes at most its
      description, to the trimmed plain text of the editor; when the editor
      gives the description back as it was, nothing changes at all. */
  lemma {:induction false} AcceptIdempotent(f: Form, shown: int, plain: string -> string)
    requires Accept(f).Some?
    ensures Accept(EditForm(Accept(f).value, shown, plain))
            == Some(Accept(f).value.(description := Trimmed(plain(Accept(f).value.description))))
    ensures plain(Accept(f).value.description) == Accept(f).value.description ==>
              Accept(EditForm(Accept(f).value, shown, plain)) == Accept(f)
  {
    var e := Accept(f).value;
    TrimmedIdempotent(f.title);
    TrimmedIdempotent(f.description);
    EditUnchanged(e, shown, plain);
  }
}

=== FILE: persistence.dfy ===
/** The `tasks` table contract of saveTasks and loadTasks (mainwindow.cpp):
    which fields a row keeps, how they are encoded, how a row becomes a card
    again, and the four example tasks seeded into an empty board. */
module Persistence {
  import opened TaskTypes
  import opened TaskCards
  import BoardLayout

  /** One row as saveTasks inserts it: status and priority as their integer
      codes, the deadline as ISO-8601 text (the second it names) or NULL.
      The table's autoincrement id column is never read back. */
  datatype Row = Row(title: string, description: string,
                     status: Code, priority: Code, deadline: Option<int>)

  function EncodeRow(p: PersistedFields): (r: Row)
    ensures r.deadline.Some? <==> p.deadline.IsValid()
    ensures StatusFromCode(r.status) == p.status && PriorityFromCode(r.priority) == p.priority
  {
    StatusCodeRoundTrip(p.status, 0);
    PriorityCodeRoundTrip(p.priority, 0);
    Row(p.title, p.description, StatusCode(p.status), PriorityCode(p.priority),
        if p.deadline.IsValid() then Some(IsoSeconds(p.deadline.msecs)) else None)
  }

  /** The fields loadTasks reads back from a row; NULL gives no deadline. */
  function DecodeRow(r: Row): (p: PersistedFields)
    ensures p.deadline.IsValid() <==> r.deadline.Some?
    ensures StatusCode(p.status) == r.status && PriorityCode(p.priority) == r.priority
  {
    StatusCodeRoundTrip(Todo, r.status);
    PriorityCodeRoundTrip(Low, r.priority);
    PersistedFields(r.title, r.description, StatusFromCode(r.status), PriorityFromCode(r.priority),
                    match r.deadline
                    case None => NoDeadline
                    case Some(sec) => FromIsoSeconds(sec))
  }

  /** What a card's persisted fields look like after a trip through the table. */
  function Normalized(p: PersistedFields): PersistedFields
  {
    p.(deadline := TruncatedToSecond(p.deadline))
  }

  /** card -> row -> card restores title, description, status, priority and
      deadline validity; the deadline is cut to whole seconds. */
  lemma CardRowCardRoundTrip(p: PersistedFields)
    ensures DecodeRow(EncodeRow(p)) == Normalized(p)
  {
    StatusCodeRoundTrip(p.status, 0);
    PriorityCodeRoundTrip(p.priority, 0);
  }

  /** row -> card -> row gives back the very row. */
  lemma {:induction false} RowCardRowRoundTrip(r: Row)
    ensures EncodeRow(DecodeRow(r)) == r
  {
    StatusCodeRoundTrip(Todo, r.status);
    PriorityCodeRoundTrip(Low, r.priority);
    if r.deadline.Some? {
      IsoTextRoundTrip(r.deadline.value);
    }
  }

  /** The table after saving cards with these fields, in iteration order. */
  function EncodeAll(ps: seq<PersistedFields>): (rows: seq<Row>)
    ensures |rows| == |ps|
  {
    seq(|ps|, i requires 0 <= i < |ps| => EncodeRow(ps[i]))
  }

  function DecodeAll(rows: seq<Row>): (ps: seq<PersistedFields>)
    ensures |ps| == |rows|
  {
    seq(|rows|, i requires 0 <= i < |rows| => DecodeRow(rows[i]))
  }

  function Statuses(ps: seq<PersistedFields>): seq<Status>
  {
    seq(|ps|, i requires 0 <= i < |ps| => ps[i].status)
  }

  /** The example tasks loadTasks creates when it read no row; their
      deadlines are relative to the current time now (milliseconds). */
  function SeedTasks(now: int): (seeds: seq<PersistedFields>)
    ensures |seeds| == 4
    ensures BoardLayout.Count(Statuses(seeds), Todo) == 2
    ensures BoardLayout.Count(Statuses(seeds), InProgress) == 1
    ensures BoardLayout.Count(Statuses(seeds), Done) == 1
    ensures forall i :: 0 <= i < 4 ==> seeds[i].deadline.IsValid()
  {
    var seeds := [
      PersistedFields("完成项目计划", "制定详细的项目实施计划，包括时间表和资源分配",
                      Todo, Medium, At(now + 2 * MsecsPerDay)),
      PersistedFields("学习Qt编程", "完成Qt GUI编程的基础学习，掌握信号与槽机制",
                      Todo, High, At(now + 7 * MsecsPerDay)),
      PersistedFields("开发任务管理系统", "实现基本的任务管理功能，包括创建、编辑和删除任务",
                      InProgress, High, At(now + 5 * MsecsPerDay)),
      PersistedFields("需求分析", "分析用户需求，确定系统功能和界面设计",
                      Done, Medium, At(now - 2 * MsecsPerDay))];
    assert Statuses(seeds) == [Todo, Todo, InProgress] + [Done];
    assert [Todo, Todo, InProgress] == [Todo, Todo] + [InProgress];
    assert [Todo, Todo] == [Todo] + [Todo] && [Todo] == [] + [Todo];
    BoardLayout.CountSnoc([], Todo);
    BoardLayout.CountSnoc([Todo], Todo);
    BoardLayout.CountSnoc([Todo, Todo], InProgress);
    BoardLayout.CountSnoc([Todo, Todo, InProgress], Done);
    seeds
  }

  /** The fields of the cards loadTasks creates from a table: one per row,
      in row order, or the examples when no row was read. */
  function Loaded(rows: seq<Row>, now: int): (ps: seq<PersistedFields>)
    ensures |rows| > 0 ==> |ps| == |rows|
    ensures |rows| == 0 ==> |ps| == 4
  {
    if |rows| == 0 then SeedTasks(now) else DecodeAll(rows)
  }

  /** Saving a non-empty board and loading it back gives one card per saved
      card, in order, with the saved fields (deadlines cut to seconds); an
      empty board comes back as the four examples. */
  lemma {:induction false} SaveLoadRoundTrip(ps: seq<PersistedFields>, now: int)
    ensures |ps| > 0 ==> Loaded(EncodeAll(ps), now) == seq(|ps|, i requires 0 <= i < |ps| => Normalized(ps[i]))
    ensures |ps| == 0 ==> Loaded(EncodeAll(ps), now) == SeedTasks(now)
  {
    if |ps| > 0 {
      forall i | 0 <= i < |ps| ensures Loaded(EncodeAll(ps), now)[i] == Normalized(ps[i]) {
        CardRowCardRoundTrip(ps[i]);
      }
    }
  }

  /** Loading a non-empty table and saving the cards writes the same table. */
  lemma {:induction false} LoadSaveRoundTrip(rows: seq<Row>, now: int)
    requires |rows| > 0
    ensures EncodeAll(Loaded(rows, now)) == rows
  {
    forall i | 0 <= i < |rows| ensures EncodeAll(Loaded(rows, now))[i] == rows[i] {
      RowCardRowRoundTrip(rows[i]);
    }
  }
}

=== FILE: report.dfy ===
/** The numbers of the report dialog (reportdialog.cpp): how many cards are
    in each status and each priority, and the range and tick count of the
    priority chart's Y axis. The charts themselves and the PDF export are
    drawing and are not part of this module. */
module Report {
  import opened TaskTypes
  import opened TaskCards

  /** Number of cards that are not null. */
  function NonNull(cards: seq<TaskCard?>): nat
  {
    if cards == [] then 0
    else NonNull(cards[..|cards| - 1]) + (if cards[|cards| - 1] != null then 1 else 0)
  }

  /** Number of (non-null) cards of status s. */
  function StatusCount(cards: seq<TaskCard?>, s: Status): nat
    reads cards
  {
    if cards == [] then 0
    else
      var c := cards[|cards| - 1];
      StatusCount(cards[..|cards| - 1], s) + (if c != null && c.status == s then 1 else 0)
  }

  /** Number of (non-null) cards of priority p. */
  function PriorityCount(cards: seq<TaskCard?>, p: Priority): nat
    reads cards
  {
    if cards == [] then 0
    else
      var c := cards[|cards| - 1];
      PriorityCount(cards[..|cards| - 1], p) + (if c != null && c.priority == p then 1 else 0)
  }

  /** Every non-null card is counted under exactly one status. */
  lemma {:induction false} StatusCountsSum(cards: seq<TaskCard?>)
    ensures StatusCount(cards, Todo) + StatusCount(cards, InProgress) + StatusCount(cards, Done)
            == NonNull(cards)
  {
    if cards != [] {
      StatusCountsSum(cards[..|cards| - 1]);
    }
  }

  /** Every non-null card is counted under exactly one priority. */
  lemma {:induction false} PriorityCountsSum(cards: seq<TaskCard?>)
    ensures PriorityCount(cards, Low) + PriorityCount(cards, Medium) + PriorityCount(cards, High)
            == NonNull(cards)
  {
    if cards != [] {
      PriorityCountsSum(cards[..|cards| - 1]);
    }
  }

  /** QMap::value(key, 0): a key never incremented reads as 0. */
  function CountOrZero<K>(m: map<K, int>, k: K): int
  {
    if k in m then m[k] else 0
  }

  /** The tally loop of the ReportDialog constructor: QMap::operator[]
      inserts a key at 0 on first use, so a key is present exactly when some
      card has it; null cards are skipped. */
  method TallyCards(cards: seq<TaskCard?>)
    returns (statusCounts: map<Status, int>, priorityCounts: map<Priority, int>)
    ensures forall s :: s in statusCounts <==> StatusCount(cards, s) > 0
    ensures forall s :: CountOrZero(statusCounts, s) == StatusCount(cards, s)
    ensures forall p :: p in priorityCounts <==> PriorityCount(cards, p) > 0
    ensures forall p :: CountOrZero(priorityCounts, p) == PriorityCount(cards, p)
  {
    statusCounts := map[];
    priorityCounts := map[];
    for i := 0 to |cards|
      invariant forall s :: s in statusCounts <==> StatusCount(cards[..i], s) > 0
      invariant forall s :: CountOrZero(statusCounts, s) == StatusCount(cards[..i], s)
      invariant forall p :: p in priorityCounts <==> PriorityCount(cards[..i], p) > 0
      invariant forall p :: CountOrZero(priorityCounts, p) == PriorityCount(cards[..i], p)
    {
      assert cards[..i + 1][..i] == cards[..i];
      var card := cards[i];
      if card != null {
        statusCounts := statusCounts[card.status := CountOrZero(statusCounts, card.status) + 1];
        priorityCounts := priorityCounts[card.priority := CountOrZero(priorityCounts, card.priority) + 1];
      }
    }
    assert cards[..|cards|] == cards;
  }

  /** createPriorityChart's axis: the largest count (from 0) folded over the
      map's values in key order; the range top is at least 1 and the tick
      count at least 2. */
  method PriorityAxis(priorityCounts: map<Priority, int>) returns (rangeMax: int, tickCount: int)
    ensures rangeMax >= 1
    ensures forall p :: p in priorityCounts ==> priorityCounts[p] <= rangeMax
    ensures rangeMax > 1 ==> exists p :: p in priorityCounts && priorityCounts[p] == rangeMax
    ensures tickCount >= 2 && tickCount == rangeMax + 1
  {
    var keys := [Low, Medium, High];
    var maxCount := 0;
    for i := 0 to |keys|
      invariant maxCount >= 0
      invariant forall k :: 0 <= k < i && keys[k] in priorityCounts ==> priorityCounts[keys[k]] <= maxCount
      invariant maxCount > 0 ==> exists p :: p in priorityCounts && priorityCounts[p] == maxCount
    {
      if keys[i] in priorityCounts {
        maxCount := Max(maxCount, priorityCounts[keys[i]]);
      }
    }
    assert keys[0] == Low && keys[1] == Medium && keys[2] == High;
    forall p: Priority | p in priorityCounts ensures priorityCounts[p] <= maxCount {
      match p
      case Low =>
      case Medium =>
      case High =>
    }
    rangeMax := Max(1, maxCount);
    tickCount := Max(2, maxCount + 1);
  }

  /** The numbers the report dialog shows for a list of cards: the counts
      with their sums, and an axis that has room for every priority bar. */
  method ReportNumbers(cards: seq<TaskCard?>)
    returns (statusCounts: map<Status, int>, priorityCounts: map<Priority, int>,
             rangeMax: int, tickCount: int)
    ensures CountOrZero(statusCounts, Todo) + CountOrZero(statusCounts, InProgress)
            + CountOrZero(statusCounts, Done) == NonNull(cards)
    ensures CountOrZero(priorityCounts, Low) + CountOrZero(priorityCounts, Medium)
            + CountOrZero(priorityCounts, High) == NonNull(cards)
    ensures forall p :: PriorityCount(cards, p) <= rangeMax
    ensures rangeMax >= 1 && tickCount == rangeMax + 1
  {
    statusCounts, priorityCounts := TallyCards(cards);
    StatusCountsSum(cards);
    PriorityCountsSum(cards);
    rangeMax, tickCount := PriorityAxis(priorityCounts);
    forall p ensures PriorityCount(cards, p) <= rangeMax {
      assert CountOrZero(priorityCounts, p) == PriorityCount(cards, p);
    }
  }
}

=== FILE: task_card.dfy ===
/** The task card entity (taskcard.cpp): its fields, the setters that change
    them one at a time, progress clamping, the duplicate-free prerequisite
    list and the flat JSON export. Painting, hover and mouse handling are
    presentation and are not part of this module. */
module TaskCards {
  import opened TaskTypes

  /** qBound(0, p, 100): the progress a card keeps for a requested value p. */
  function ClampProgress(p: int): (r: int)
    ensures 0 <= r <= 100
    ensures 0 <= p <= 100 ==> r == p
    ensures p < 0 ==> r == 0
    ensures p > 100 ==> r == 100
  {
    Max(0, Min(p, 100))
  }

  function Max(a: int, b: int): int { if a < b then b else a }
  function Min(a: int, b: int): int { if a < b then a else b }

  /** Clamping an already clamped value changes nothing. */
  lemma ClampIdempotent(p: int)
    ensures ClampProgress(ClampProgress(p)) == ClampProgress(p)
  {
  }

  predicate NoDuplicates<T(==)>(s: seq<T>)
  {
    forall i, j :: 0 <= i < j < |s| ==> s[i] != s[j]
  }

  /** QList::contains followed by QList::append: the list after addDependency. */
  function Appended<T(==)>(s: seq<T>, t: T): (r: seq<T>)
    ensures t in r
    ensures |s| <= |r| <= |s| + 1 && r[..|s|] == s
    ensures forall k :: |s| <= k < |r| ==> r[k] == t
    ensures NoDuplicates(s) ==> NoDuplicates(r)
  {
    if t in s then s else s + [t]
  }

  /** The index of the first occurrence of t in s. */
  function FirstIndex<T(==)>(s: seq<T>, t: T): (i: nat)
    requires t in s
    ensures i < |s| && s[i] == t
    ensures forall k :: 0 <= k < i ==> s[k] != t
  {
    if s[0] == t then 0 else 1 + FirstIndex(s[1..], t)
  }

  /** QList::removeOne: the list without the first occurrence of t. */
  function RemovedOne<T(==)>(s: seq<T>, t: T): (r: seq<T>)
    ensures t !in s ==> r == s
    ensures t in s ==> r == s[..FirstIndex(s, t)] + s[FirstIndex(s, t) + 1..]
  {
    if s == [] then []
    else if s[0] == t then s[1..]
    else
      var r := [s[0]] + RemovedOne(s[1..], t);
      assert t in s ==> t in s[1..] && FirstIndex(s, t) == 1 + FirstIndex(s[1..], t);
      assert t in s ==> s[..FirstIndex(s, t)] == [s[0]] + s[1..][..FirstIndex(s[1..], t)];
      assert t in s ==> s[FirstIndex(s, t) + 1..] == s[1..][FirstIndex(s[1..], t) + 1..];
      r
  }

  /** The elements of s with index i cut out, by their old indexes. */
  lemma CutAt<T>(s: seq<T>, i: nat)
    requires i < |s|
    ensures |s[..i] + s[i + 1..]| == |s| - 1
    ensures forall k :: 0 <= k < i ==> (s[..i] + s[i + 1..])[k] == s[k]
    ensures forall k :: i < k < |s| ==> (s[..i] + s[i + 1..])[k - 1] == s[k]
  {
  }

  /** Cutting out the only occurrence of s[i] leaves every other element and
      no duplicate. */
  lemma {:induction false} CutAtNoDuplicates<T>(s: seq<T>, i: nat)
    requires NoDuplicates(s) && i < |s|
    ensures forall u :: u in s[..i] + s[i + 1..] <==> u in s && u != s[i]
    ensures NoDuplicates(s[..i] + s[i + 1..])
  {
    var r := s[..i] + s[i + 1..];
    CutAt(s, i);
    forall u | u in r ensures u in s && u != s[i] {
      var k :| 0 <= k < |r| && r[k] == u;
      if k >= i { assert r[k] == s[k + 1]; }
    }
    forall u | u in s && u != s[i] ensures u in r {
      var k :| 0 <= k < |s| && s[k] == u;
      var k' := if k < i then k else k - 1;
      assert r[k'] == u;
    }
    forall a, b | 0 <= a < b < |r| ensures r[a] != r[b] {
      var a' := if a < i then a else a + 1;
      var b' := if b < i then b else b + 1;
      assert r[a] == s[a'] && r[b] == s[b'];
    }
  }

  /** On a duplicate-free list, removeOne removes t altogether and keeps every
      other element, in order. */
  lemma {:induction false} RemovedOneNoDuplicates<T>(s: seq<T>, t: T)
    requires NoDuplicates(s)
    ensures t !in RemovedOne(s, t)
    ensures NoDuplicates(RemovedOne(s, t))
    ensures forall u :: u in RemovedOne(s, t) <==> u in s && u != t
  {
    if t in s {
      CutAtNoDuplicates(s, FirstIndex(s, t));
    }
  }

  /** A value of one JSON member as QJsonObject holds it. The ISO-8601 text of
      a deadline is represented by the second it names. */
  datatype JsonValue =
    | JString(text: string)
    | JNumber(number: int)
    | JIsoDate(seconds: int)
    | JArray(items: seq<JsonValue>)

  /** The keys toJson always writes; "deadline" is added only when valid. */
  const ExportKeys: set<string> :=
    {"id", "title", "description", "status", "priority", "progress", "projectId", "assignee", "dependencies"}

  /** Every field of a card, for stating what an operation changes. */
  datatype CardState = CardState(
    id: string, title: string, description: string,
    status: Status, priority: Priority, deadline: Deadline,
    assignee: string, projectId: string, progress: int,
    deps: seq<TaskCard>, selected: bool, x: real, y: real)

  /** The five fields the `tasks` table keeps. */
  datatype PersistedFields = PersistedFields(
    title: string, description: string,
    status: Status, priority: Priority, deadline: Deadline)

  class TaskCard {
    var id: string
    var title: string
    var description: string
    var status: Status
    var priority: Priority
    var deadline: Deadline
    var assignee: string
    var projectId: string
    var progress: int
    /** Prerequisites, in the order they were added. */
    var deps: seq<TaskCard>
    /** m_selected: set by a mouse press, never reset. */
    var selected: bool
    /** Scene position (QGraphicsItem::pos). */
    var x: real
    var y: real

    ghost predicate Valid()
      reads this
    {
      0 <= progress <= 100 && NoDuplicates(deps)
    }

    ghost function State(): CardState
      reads this
    {
      CardState(id, title, description, status, priority, deadline,
                assignee, projectId, progress, deps, selected, x, y)
    }

    /** Every field but the scene position: what layout leaves alone. */
    ghost function Content(): CardState
      reads this`id, this`title, this`description, this`status, this`priority, this`deadline,
            this`assignee, this`projectId, this`progress, this`deps, this`selected
    {
      CardState(id, title, description, status, priority, deadline,
                assignee, projectId, progress, deps, selected, 0.0, 0.0)
    }

    function Persisted(): PersistedFields
      reads this`title, this`description, this`status, this`priority, this`deadline
    {
      PersistedFields(title, description, status, priority, deadline)
    }

    /** The constructor with the header's default arguments; the uuid the
        source generates is the parameter id. */
    constructor (id: string, title: string, description: string,
                 priority: Priority := Medium, status: Status := Todo,
                 deadline: Deadline := NoDeadline,
                 assignee: string := "", projectId: string := "")
      ensures Valid()
      ensures State() == CardState(id, title, description, status, priority, deadline,
                                   assignee, projectId, 0, [], false, 0.0, 0.0)
    {
      this.id := id;
      this.title := title;
      this.description := description;
      this.status := status;
      this.priority := priority;
      this.deadline := deadline;
      this.assignee := assignee;
      this.projectId := projectId;
      progress := 0;
      deps := [];
      selected := false;
      x, y := 0.0, 0.0;
    }

    method SetId(v: string)
      modifies this`id
      ensures State() == old(State()).(id := v)
    {
      id := v;
    }

    method SetProjectId(v: string)
      modifies this`projectId
      ensures State() == old(State()).(projectId := v)
    {
      projectId := v;
    }

    method SetTitle(v: string)
      modifies this`title
      ensures State() == old(State()).(title := v)
    {
      title := v;
    }

    method SetDescription(v: string)
      modifies this`description
      ensures State() == old(State()).(description := v)
    {
      description := v;
    }

    method SetPriority(v: Priority)
      modifies this`priority
      ensures State() == old(State()).(priority := v)
    {
      priority := v;
    }

    method SetDeadline(v: Deadline)
      modifies this`deadline
      ensures State() == old(State()).(deadline := v)
    {
      deadline := v;
    }

    method SetAssignee(v: string)
      modifies this`assignee
      ensures State() == old(State()).(assignee := v)
    {
      assignee := v;
    }

    method SetStatus(v: Status)
      modifies this`status
      ensures State() == old(State()).(status := v)
    {
      status := v;
    }

    /** QGraphicsItem::setPos; the frame keeps every other field. */
    method MoveTo(nx: real, ny: real)
      modifies this`x, this`y
      ensures x == nx && y == ny
    {
      x, y := nx, ny;
    }

    method SetProgress(p: int)
      requires Valid()
      modifies this`progress
      ensures Valid()
      ensures State() == old(State()).(progress := ClampProgress(p))
      ensures p == old(progress) ==> State() == old(State())
    {
      progress := ClampProgress(p);
    }

    /** Appends t unless already present; a card may be its own prerequisite. */
    method AddDependency(t: TaskCard)
      requires Valid()
      modifies this`deps
      ensures Valid() && t in deps
      ensures State() == old(State()).(deps := Appended(old(deps), t))
    {
      if t !in deps {
        deps := deps + [t];
      }
    }

    method RemoveDependency(t: TaskCard)
      requires Valid()
      modifies this`deps
      ensures Valid() && t !in deps
      ensures State() == old(State()).(deps := RemovedOne(old(deps), t))
    {
      RemovedOneNoDuplicates(deps, t);
      deps := RemovedOne(deps, t);
    }

    /** The flat export: one member per field, "deadline" only when valid,
        the prerequisites as their ids in list order. */
    method ToJson() returns (json: map<string, JsonValue>)
      ensures json.Keys == if deadline.IsValid() then ExportKeys + {"deadline"} else ExportKeys
      ensures json["id"] == JString(id) && json["title"] == JString(title)
      ensures json["description"] == JString(description)
      ensures json["status"] == JNumber(StatusCode(status))
      ensures json["priority"] == JNumber(PriorityCode(priority))
      ensures json["progress"] == JNumber(progress)
      ensures json["projectId"] == JString(projectId) && json["assignee"] == JString(assignee)
      ensures deadline.IsValid() ==> json["deadline"] == JIsoDate(IsoSeconds(deadline.msecs))
      ensures json["dependencies"].JArray? && |json["dependencies"].items| == |deps|
      ensures forall k :: 0 <= k < |deps| ==> json["dependencies"].items[k] == JString(deps[k].id)
    {
      json := map["id" := JString(id), "title" := JString(title),
                  "description" := JString(description),
                  "status" := JNumber(StatusCode(status)),
                  "priority" := JNumber(PriorityCode(priority)),
                  "progress" := JNumber(progress), "projectId" := JString(projectId)];
      if deadline.IsValid() {
        json := json["deadline" := JIsoDate(IsoSeconds(deadline.msecs))];
      }
      json := json["assignee" := JString(assignee)];
      var ids: seq<JsonValue> := [];
      for k := 0 to |deps|
        invariant |ids| == k
        invariant forall m :: 0 <= m < k ==> ids[m] == JString(deps[m].id)
      {
        ids := ids + [JString(deps[k].id)];
      }
      json := json["dependencies" := JArray(ids)];
    }
  }
}

=== FILE: task_types.dfy ===
/** Enumerations of a task card and their integer encodings (taskcard.h).
    The integer codes are what the `tasks` table stores and what the JSON
    export writes. */
module TaskTypes {

  datatype Option<T> = None | Some(value: T)

  /** Column a card belongs to: Todo = 0, InProgress = 1, Done = 2. */
  datatype Status = Todo | InProgress | Done

  /** Urgency of a card: Low = 0, Medium = 1, High = 2. */
  datatype Priority = Low | Medium | High

  /** The integers an enum value is encoded as. */
  type Code = n: int | 0 <= n <= 2

  function StatusCode(s: Status): (n: Code)
    ensures s == Todo <==> n == 0
    ensures s == InProgress <==> n == 1
  {
    match s
    case Todo => 0
    case InProgress => 1
    case Done => 2
  }

  function PriorityCode(p: Priority): (n: Code)
    ensures p == Low <==> n == 0
    ensures p == Medium <==> n == 1
  {
    match p
    case Low => 0
    case Medium => 1
    case High => 2
  }

  /** The cast from the stored integer back to the enum. */
  function StatusFromCode(n: Code): (s: Status)
    ensures StatusCode(s) == n
  {
    if n == 0 then Todo else if n == 1 then InProgress else Done
  }

  function PriorityFromCode(n: Code): (p: Priority)
    ensures PriorityCode(p) == n
  {
    if n == 0 then Low else if n == 1 then Medium else High
  }

  /** Decoding is the inverse of encoding, in both directions. */
  lemma StatusCodeRoundTrip(s: Status, n: Code)
    ensures StatusFromCode(StatusCode(s)) == s
    ensures StatusCode(StatusFromCode(n)) == n
  {
  }

  lemma PriorityCodeRoundTrip(p: Priority, n: Code)
    ensures PriorityFromCode(PriorityCode(p)) == p
    ensures PriorityCode(PriorityFromCode(n)) == n
  {
  }

  /** A date-time that may be invalid, as a QDateTime is: `NoDeadline` is the
      default-constructed (invalid) value, `At(msecs)` a valid instant given
      in milliseconds since the epoch. */
  datatype Deadline = NoDeadline | At(msecs: int)
  {
    predicate IsValid() { At? }
  }

  const MsecsPerSecond: int := 1000
  const MsecsPerDay: int := 86_400_000

  /** Qt::ISODate text names a whole second ("yyyy-MM-ddTHH:mm:ss"): the text
      is modelled by the second it names, the floor of msecs / 1000. */
  function IsoSeconds(msecs: int): (sec: int)
    ensures sec * MsecsPerSecond <= msecs < (sec + 1) * MsecsPerSecond
  {
    msecs / MsecsPerSecond
  }

  /** Parsing the ISO text back gives the start of the named second. */
  function FromIsoSeconds(sec: int): (d: Deadline)
    ensures d.IsValid()
  {
    At(sec * MsecsPerSecond)
  }

  /** What survives a trip through ISO text: the deadline cut to its second. */
  function TruncatedToSecond(d: Deadline): (r: Deadline)
    ensures r.IsValid() == d.IsValid()
    ensures d.At? ==> r.msecs <= d.msecs < r.msecs + MsecsPerSecond
    ensures d.At? ==> r.msecs % MsecsPerSecond == 0
    ensures d.At? && d.msecs % MsecsPerSecond == 0 ==> r == d
  {
    match d
    case NoDeadline => NoDeadline
    case At(ms) => FromIsoSeconds(IsoSeconds(ms))
  }

  /** Parsing the text of a parsed deadline gives the same text back. */
  lemma IsoTextRoundTrip(sec: int)
    ensures IsoSeconds(FromIsoSeconds(sec).msecs) == sec
  {
  }
}
